=== FILE: README.md ===
# Route search and cost rasters, in Dafny

This project models the routing core of a land-cover route planner.

- `CostMapGenerator` (`src/cost_map.py`) maps land-cover labels to construction costs. It paints a cost raster from a segmentation mask and reports per-terrain statistics.
- `AStarPathfinder` (`src/pathfinding.py`) runs a best-first search over that raster. A move goes to any of the up to eight surrounding cells that lie inside the raster, and entering a cell costs that cell's raster value. It rebuilds the route from the predecessor map and reports the route's length, summed cost, average cost and endpoints.

Modules:

- `Results`: `Option` and `Result`. A Python exception becomes a `Failure`.
- `Grid`: cells, rectangular rasters, the 8-neighbour relation, and `_get_neighbors` with its fixed scan order N, NE, E, SE, S, SW, W, NW.
- `Frontier`: the `heapq` open list. It is a sequence of `(priority, cell)` entries with a pop-min under Python's tuple order.
- `Ledger`: the per-call search state. It holds the open list, `came_from`, `g_score`, `f_score` and `closed_set`. It also holds the relaxation of a just-closed cell's neighbours and the invariant that relaxation keeps.
- `Pathfinding`: `find_path`, `_reconstruct_path` and the main-loop invariant.
- `RouteStatistics`: `get_path_statistics`.
- `CostMap`: the cost table, `generate_cost_map`, `update_costs` and `get_terrain_statistics`.

Behaviour of `find_path` and `get_path_statistics` worth noting:

- The start cell is queued with priority 0, not with its heuristic value.
- Heap entries carry no insertion counter. Ties on priority are broken by comparing the cell tuples.
- A neighbour whose cost improves is pushed only when no entry for it is queued already. The old entry then keeps its old priority, so this model makes no claim that the route is cheapest.
- No entry for a closed cell is ever queued or popped: every queued cell is open, and a closed cell is never queued again. The entry popped for a cell may still carry a priority computed from an older, higher cost.
- `find_path` never reports "no path" for in-bounds endpoints. Every cost is finite and the raster is 8-connected, so the search always reaches `end`. `FindPath` proves this: the `None` return is dead code.
- The statistics add up the cost of every route cell, the first included. The recorded `self.cost` leaves out the first cell. `RouteStatistics.StatisticsOfFoundRoute` states the difference.

## Model

| member | source | states |
|---|---|---|
| Pathfinding.FindPath | src/pathfinding.py:31-81 | `ValueError` exactly when start is out of bounds, or end is out of bounds while start is in bounds, and a failed call leaves the pathfinder unchanged. For in-bounds endpoints a path is always returned. It is a start-to-end route of in-bounds, pairwise-distinct 8-neighbours, stored in `self.path` with `self.cost` equal to the cost of walking it. A start equal to the end gives the one-cell route at cost 0. |
| Pathfinding.RouteTo | src/pathfinding.py:50-57 | When the popped cell is `end`, walking `came_from` back from it gives a route from `start` to `end` whose walking cost is `g_score[end]`. |
| Pathfinding.FoundRoute | src/pathfinding.py:52-57 | A predecessor walk from a queued `end` that stops at a cell without a predecessor is a route from `start`, and its cost is `g_score[end]`. |
| Pathfinding.ReconstructPath | src/pathfinding.py:124-140 | The returned path ends at `current` and starts at a cell with no predecessor. Each cell's predecessor is the cell before it. Cells appear in strictly increasing closing order, so none repeats. |
| Pathfinding.ScoreAlongChain | src/pathfinding.py:66-72 | Along a chain of predecessor links from `start`, the recorded cost of the last cell is the cost of entering each later cell of the chain. |
| Pathfinding.UniformPathCost | src/pathfinding.py:66-68 | On a raster of constant cost `c`, a route of `k` cells costs `(k - 1) * c`, for straight and diagonal steps alike. |
| Pathfinding.Expand | src/pathfinding.py:49-78 | One iteration that does not reach `end` closes the popped cell, which was open and in bounds, and keeps the main-loop invariant. |
| Pathfinding.ExpandConsistent | src/pathfinding.py:59-78 | Closing any queued cell and relaxing its neighbours keeps the bookkeeping invariant. The cell is added to the closing order as its latest member. |
| Pathfinding.ExpandDiscovers | src/pathfinding.py:62-74 | After the neighbour loop, every in-bounds neighbour of every closed cell has a known cost. |
| Pathfinding.ExpandOrdered | src/pathfinding.py:59-71 | Closed cells keep predecessors that were closed before them, with the expanded cell as the latest. |
| Pathfinding.CloseCore | src/pathfinding.py:50-59 | Removing a queued entry and closing its cell keeps the bookkeeping and closes the start cell. |
| Pathfinding.ClosingOrderRanks | src/pathfinding.py:135-138 | The closing order, extended by the popped cell, decreases strictly along every predecessor link, so the walk back terminates. |
| Pathfinding.ExhaustedClosesAll | src/pathfinding.py:49-81 | If the open list ever ran empty, every in-bounds cell would be closed, `end` included. This is why the "no path" return cannot be reached. |
| Pathfinding.Connected | src/pathfinding.py:111-122 | A set that contains some in-bounds cell, and every in-bounds 8-neighbour of each of its members, contains every in-bounds cell of the raster. |
| Grid.Neighbors | src/pathfinding.py:96-122 | A cell is listed exactly when it is in bounds and one king move from the point. The point itself is never listed, at most 8 cells are listed, none repeats, and they come in N, NE, E, SE, S, SW, W, NW order. |
| Grid.AdjacentIffDirection | src/pathfinding.py:111-115 | The offset table and adjacency agree: `b` is an 8-neighbour of `a` exactly when one listed offset leads from `a` to `b`. |
| Grid.DirectionOfStep | src/pathfinding.py:112-118 | Stepping along offset `k` and looking the move up again gives back `k`, because the offsets are distinct. |
| Grid.StepAllMembership | src/pathfinding.py:117-120 | The cells reached through the in-bounds offsets are exactly the in-bounds 8-neighbours. |
| Grid.InBoundsDirections | src/pathfinding.py:117-119 | The offsets kept are exactly those whose step stays inside the raster, in table order. |
| Frontier.PopMin | src/pathfinding.py:50 | `heappop` returns an entry of the heap that is least under the tuple order, and the rest of the heap is the remaining multiset of entries. |
| Frontier.MinIndex | src/pathfinding.py:50 | The selected position holds an entry no greater than any other entry. |
| Frontier.PopMinIndependentOfLayout | src/pathfinding.py:50 | Two heaps holding the same entries pop the same entry, whatever their internal layout. |
| Frontier.CellsAppend | src/pathfinding.py:77-78 | Pushing an entry adds exactly its cell to the queued cells and keeps one entry per cell when the cell was not queued. |
| Frontier.CellsRemoveAt | src/pathfinding.py:50 | Popping from a queue with one entry per cell removes exactly the popped cell. |
| Ledger.Init | src/pathfinding.py:40-47 | Before the loop the heap is exactly the one entry `(0, start)`, and `start` is the only cell with a known cost, 0, and no cell is closed or has a predecessor. |
| Ledger.Push | src/pathfinding.py:76-78 | The queued cells gain exactly the pushed cell. A cell already queued is not queued again, so one entry per cell is kept. |
| Ledger.RelaxNeighbor | src/pathfinding.py:62-78 | A closed neighbour, or one already known at a cost no greater than the route through `current`, leaves the state unchanged. Otherwise, when the route is strictly cheaper, `current` becomes the neighbour's predecessor, the new cost and its priority are recorded together, and the neighbour is pushed unless it is already queued. Costs never rise, and no other cell's cost changes. |
| Ledger.RelaxNeighborCore | src/pathfinding.py:62-78 | One neighbour's relaxation keeps the bookkeeping invariant. Known cells are the closed and queued cells, and queued cells are open. Predecessors are closed in-bounds neighbours that account for the cost. |
| Ledger.RelaxRooted | src/pathfinding.py:70-72 | Relaxation keeps `start` at cost 0 without a predecessor, and every other known cell has a predecessor. |
| Ledger.RelaxPartitioned | src/pathfinding.py:70-78 | Relaxation keeps known cells split into closed cells and queued cells, with one entry per queued cell. |
| Ledger.RelaxLinked | src/pathfinding.py:66-72 | Relaxation keeps every predecessor a closed in-bounds 8-neighbour, with the cost equal to the predecessor's cost plus the entry cost. |
| Ledger.UpdatePartitioned | src/pathfinding.py:70-78 | Recording a new cost for an open cell and pushing it keeps the closed/queued partition. |
| Ledger.UpdateLinked | src/pathfinding.py:70-72 | Recording `current` as the predecessor of an open neighbour keeps the predecessor links valid. |
| Ledger.RelaxAll | src/pathfinding.py:62-78 | After the whole neighbour loop, every neighbour is known or was closed. Costs only go down, and closed cells keep their cost and predecessor. |
| Ledger.RelaxAllCore | src/pathfinding.py:62-78 | The whole neighbour loop keeps the bookkeeping invariant. |
| RouteStatistics.PathStatistics | src/pathfinding.py:142-164 | No stored path gives `None`. An `IndexError` occurs exactly when some route cell cannot be indexed, and a `ZeroDivisionError` exactly for an empty route. Otherwise it returns the length, first and last cells, the cost summed over all cells, and an average that times the length gives the total. |
| RouteStatistics.Lookup | src/pathfinding.py:155 | Indexing succeeds exactly within numpy's range, negative indices included, and an in-bounds cell reads its own cost. |
| RouteStatistics.AxisIndex | src/pathfinding.py:155 | A numpy index is accepted exactly in `[-n, n)` and lands on the same position modulo `n`. |
| RouteStatistics.SumCells | src/pathfinding.py:155 | The sum exists exactly when every route cell can be indexed. |
| RouteStatistics.SumCellsOfWalk | src/pathfinding.py:155 | On in-bounds cells, the summed cost is the first cell's cost plus the cost of walking the route. |
| RouteStatistics.StatisticsOfFoundRoute | src/pathfinding.py:152-164 | For the route `find_path` stored, the statistics succeed with the route's length and endpoints. The total is the stored `self.cost` plus the start cell's cost. |
| RouteStatistics.UniformStatistics | src/pathfinding.py:155-156 | On a raster of constant cost `c`, a `k`-cell route has total `k * c` and average exactly `c`. |
| CostMap.NewGenerator | src/cost_map.py:11-28 | Without a table, the defaults are labels 0 to 4 costing 1000, 500, 200, 100 and 50. A supplied table, even an empty one, is used unchanged. |
| CostMap.UpdateCosts | src/cost_map.py:47-54 | The labels become the union of old and new labels. A new entry wins, and every other entry is unchanged. |
| CostMap.UpdateIdempotent | src/cost_map.py:54 | Applying the same update twice equals applying it once. |
| CostMap.CostGridAfterUpdate | src/cost_map.py:40-54 | After `update_costs`, regenerating the raster gives each pixel whose label was updated the new cost, and leaves every other pixel as it was. |
| CostMap.CostGrid | src/cost_map.py:40-43 | The reference raster has the mask's shape. A pixel with a label in the table costs that label's entry, and any other pixel keeps the zero background. |
| CostMap.GenerateCostMap | src/cost_map.py:30-45 | Painting the table entries one label at a time, in any iteration order, gives the reference raster. |
| CostMap.Paint | src/cost_map.py:43 | Exactly the pixels carrying the label get the cost. All other pixels keep their value. |
| CostMap.PaintCommutes | src/cost_map.py:42-43 | Painting two different labels gives the same raster in either order, so dictionary order does not matter. |
| CostMap.PaintStep | src/cost_map.py:42-43 | Painting one more table label onto the raster of the labels done so far gives the raster of the larger label set. |
| CostMap.Restrict | src/cost_map.py:42 | The sub-table for a label set has exactly the common labels, with unchanged costs. |
| CostMap.TerrainStatistics | src/cost_map.py:56-86 | The call succeeds exactly when every occurring label 0-4 has a cost and the rasters' shapes match. A `KeyError` names the first occurring label without a cost. An `IndexError` means the shapes differ and the first occurring label that fails has a cost, because `cost_value` is read before `total_cost`. On success there is one entry per occurring terrain, holding the table cost, the pixel count and the cost summed over its pixels. |
| CostMap.TerrainStatsFrom | src/cost_map.py:77-84 | The same, for the loop over the class ids from `k` on. |
| CostMap.OccursIffCounted | src/cost_map.py:78-82 | A label occurs in the mask exactly when its pixel count is positive. |
| CostMap.CountMultiset | src/cost_map.py:82 | The pixel count of a label is its multiplicity among all pixels of the mask. |
| CostMap.CountRowMultiset | src/cost_map.py:82 | The count in one row is the label's multiplicity in that row. |
| CostMap.FlattenHolds | src/cost_map.py:78-79 | Each pixel appears in the flattened mask. |
| CostMap.FlattenIndex | src/cost_map.py:78-79 | Each entry of the flattened mask is some pixel. |
| CostMap.SumRowsPainted | src/cost_map.py:83 | On a generated raster, the cost summed over a label's pixels is the pixel count times the label's cost. |
| CostMap.SumRowPainted | src/cost_map.py:83 | The same, for one row. |
| CostMap.StatisticsOfGenerated | src/cost_map.py:67-86 | On the raster the generator painted, with a cost for every occurring label, the statistics succeed. Each reported terrain has a positive pixel count and total equal to count times cost. |

## Left out

- The heuristic is a parameter of type `(Cell, Cell) -> nat`. The original's float Euclidean distance (`np.sqrt`) is not modelled, and no proved property depends on its values.
- `f_score` is written and never read by the original. The model records it, `RelaxNeighbor` states how it is written, and no other property depends on it.
- Pathfinding.FindPath: does not claim that the route is a cheapest one. The guarded push at lines 77-78 leaves an improved cell under its old priority, so cheapest-route optimality does not follow from the code.
- Costs are nonnegative integers. The original rasters are `float32` arrays, and the statistics return Python floats. The average is modelled as an exact `real`, and float rounding is not modelled.
- RouteStatistics.PathStatistics: the sum is exact. It does not model the order in which floating-point additions round.
- CostMap.GenerateCostMap: the raster holds the table's integers exactly. `float32` cannot hold costs above 2^24 exactly, and that rounding is not modelled.
- CostMap.NewGenerator: a supplied dictionary is shared with the caller in the original, so the caller's later mutations show through. Aliasing is not modelled, and the table is a value.
- CostMap.TerrainStatistics: the result is a map. The insertion order of the Python dictionary's keys (water to road) is not modelled.
- Masks and rasters are rectangular, as numpy arrays are. Non-integer labels and the comparison of a mask with a cost raster of different rank are not modelled.
- `self.path` and `self.cost` are passed in and returned as a `Pathfinder` value rather than mutated in place.
- Rendering, data loading, the segmentation model and the user interface sit in other files and are not part of this model.

=== FILE: cost_map.dfy ===
/** `CostMapGenerator` from `src/cost_map.py`: the table from land-cover
    labels to construction costs, the cost raster it paints from a label
    mask (the input of the route search), and the per-label statistics. */
module CostMap {
  import opened Results
  import opened Grid

  /** A land-cover segmentation: one integer label per pixel. */
  type Mask = seq<seq<int>>

  /** `terrain_costs`: label to cost. */
  type CostTable = map<int, nat>

  datatype CostMapGenerator = CostMapGenerator(terrainCosts: CostTable)

  /** Water, forest, urban, barren, road. */
  const DefaultCosts: CostTable := map[0 := 1000, 1 := 500, 2 := 200, 3 := 100, 4 := 50]

  /** `CostMapGenerator(terrain_costs)`: the default table when no table is
      given; a given table, even an empty one, is taken as it is. */
  function NewGenerator(terrainCosts: Option<CostTable>): (g: CostMapGenerator)
    ensures terrainCosts.Some? ==> g.terrainCosts == terrainCosts.value
    ensures terrainCosts.None? ==> g.terrainCosts.Keys == {0, 1, 2, 3, 4}
    ensures terrainCosts.None? ==>
      g.terrainCosts[0] == 1000 && g.terrainCosts[1] == 500 && g.terrainCosts[2] == 200
      && g.terrainCosts[3] == 100 && g.terrainCosts[4] == 50
  {
    match terrainCosts
    case None => CostMapGenerator(DefaultCosts)
    case Some(t) => CostMapGenerator(t)
  }

  /** `update_costs`: `dict.update`, so the new entries win and nothing is
      removed. */
  function UpdateCosts(g: CostMapGenerator, newCosts: CostTable): (g': CostMapGenerator)
    ensures g'.terrainCosts.Keys == g.terrainCosts.Keys + newCosts.Keys
    ensures forall k :: k in newCosts ==> g'.terrainCosts[k] == newCosts[k]
    ensures forall k :: k in g.terrainCosts && k !in newCosts ==> g'.terrainCosts[k] == g.terrainCosts[k]
  {
    CostMapGenerator(g.terrainCosts + newCosts)
  }

  /** Applying the same update twice is applying it once. */
  lemma UpdateIdempotent(g: CostMapGenerator, newCosts: CostTable)
    ensures UpdateCosts(UpdateCosts(g, newCosts), newCosts) == UpdateCosts(g, newCosts)
  {
    var once, twice := UpdateCosts(g, newCosts), UpdateCosts(UpdateCosts(g, newCosts), newCosts);
    assert twice.terrainCosts == once.terrainCosts;
  }

  /** The cost a pixel labelled `classId` receives: its table entry, or 0
      (the `np.zeros_like` background) for a label the table lacks. */
  function CostOf(table: CostTable, classId: int): nat
  {
    if classId in table then table[classId] else 0
  }

  /** Two arrays of the same shape (row by row). */
  predicate SameShape<S, T>(a: seq<seq<S>>, b: seq<seq<T>>)
  {
    |a| == |b| && forall i :: 0 <= i < |a| ==> |a[i]| == |b[i]|
  }

  /** The cost raster of `mask` under `table`, pixel by pixel. */
  function CostGrid(table: CostTable, mask: Mask): (cm: Costs)
    ensures SameShape(cm, mask)
    ensures Rectangular(mask) ==> Rectangular(cm)
    ensures forall i, j :: 0 <= i < |mask| && 0 <= j < |mask[i]| && mask[i][j] in table ==> cm[i][j] == table[mask[i][j]]
    ensures forall i, j :: 0 <= i < |mask| && 0 <= j < |mask[i]| && mask[i][j] !in table ==> cm[i][j] == 0
  {
    seq(|mask|, i requires 0 <= i < |mask| =>
      seq(|mask[i]|, j requires 0 <= j < |mask[i]| => CostOf(table, mask[i][j])))
  }

  /** `cost_map[segmentation_mask == class_id] = cost`. */
  function Paint(cm: Costs, mask: Mask, classId: int, cost: nat): (r: Costs)
    requires SameShape(cm, mask)
    ensures SameShape(r, mask)
    ensures forall i, j :: 0 <= i < |mask| && 0 <= j < |mask[i]| ==>
      r[i][j] == if mask[i][j] == classId then cost else cm[i][j]
  {
    seq(|cm|, i requires 0 <= i < |cm| =>
      seq(|cm[i]|, j requires 0 <= j < |cm[i]| => if mask[i][j] == classId then cost else cm[i][j]))
  }

  /** Painting two different labels gives the same raster in either order,
      since a pixel carries one label. */
  lemma PaintCommutes(cm: Costs, mask: Mask, a: int, x: nat, b: int, y: nat)
    requires SameShape(cm, mask) && a != b
    ensures Paint(Paint(cm, mask, a, x), mask, b, y) == Paint(Paint(cm, mask, b, y), mask, a, x)
  {
    var l, r := Paint(Paint(cm, mask, a, x), mask, b, y), Paint(Paint(cm, mask, b, y), mask, a, x);
    forall i | 0 <= i < |mask|
      ensures l[i] == r[i]
    {
    }
  }

  /** The part of `table` whose labels are in `labels`. */
  function Restrict(table: CostTable, labels: set<int>): (t: CostTable)
    ensures t.Keys == table.Keys * labels
    ensures forall k :: k in t ==> t[k] == table[k]
  {
    map k | k in table && k in labels :: table[k]
  }

  /** Painting one more label of the table onto the raster of the labels
      painted so far gives the raster of the larger set. */
  lemma PaintStep(table: CostTable, done: set<int>, mask: Mask, k: int)
    requires k in table
    ensures Paint(CostGrid(Restrict(table, done), mask), mask, k, table[k])
         == CostGrid(Restrict(table, done + {k}), mask)
  {
    var l := Paint(CostGrid(Restrict(table, done), mask), mask, k, table[k]);
    var r := CostGrid(Restrict(table, done + {k}), mask);
    forall i | 0 <= i < |mask|
      ensures l[i] == r[i]
    {
    }
  }

  /** `generate_cost_map`: start from an all-zero raster of the mask's shape
      and paint each table entry in turn.  The entry picked next is left
      open, so the postcondition holds for every iteration order of the
      dictionary. */
  method GenerateCostMap(g: CostMapGenerator, mask: Mask) returns (cm: Costs)
    ensures cm == CostGrid(g.terrainCosts, mask)
  {
    var table := g.terrainCosts;
    cm := CostGrid(map[], mask);
    assert Restrict(table, {}) == map[];
    var remaining := table.Keys;
    ghost var done: set<int> := {};
    while exists k :: k in remaining
      invariant remaining <= table.Keys && done == table.Keys - remaining
      invariant cm == CostGrid(Restrict(table, done), mask)
      decreases remaining
    {
      var k :| k in remaining;
      PaintStep(table, done, mask, k);
      cm := Paint(cm, mask, k, table[k]);
      remaining := remaining - {k};
      done := done + {k};
    }
    assert Restrict(table, done) == table;
  }

  /** Changing the table and painting again changes exactly the pixels whose
      label was updated. */
  lemma CostGridAfterUpdate(g: CostMapGenerator, newCosts: CostTable, mask: Mask, i: nat, j: nat)
    requires i < |mask| && j < |mask[i]|
    ensures CostGrid(UpdateCosts(g, newCosts).terrainCosts, mask)[i][j]
         == if mask[i][j] in newCosts then newCosts[mask[i][j]] else CostGrid(g.terrainCosts, mask)[i][j]
  {
  }

  /** Number of entries equal to `classId` in one row. */
  function CountRow(row: seq<int>, classId: int): nat
  {
    if |row| == 0 then 0
    else (if row[0] == classId then 1 else 0) + CountRow(row[1..], classId)
  }

  /** Number of pixels labelled `classId` in the first `n` rows. */
  function CountRows(mask: Mask, classId: int, n: nat): nat
    requires n <= |mask|
  {
    if n == 0 then 0 else CountRows(mask, classId, n - 1) + CountRow(mask[n - 1], classId)
  }

  /** `int(np.sum(segmentation_mask == class_id))`. */
  function Count(mask: Mask, classId: int): nat
  {
    CountRows(mask, classId, |mask|)
  }

  /** The first `n` rows, one after the other: numpy's `ravel()` when `n`
      is the number of rows. */
  function FlattenRows(mask: Mask, n: nat): seq<int>
    requires n <= |mask|
  {
    if n == 0 then [] else FlattenRows(mask, n - 1) + mask[n - 1]
  }

  /** `np.any(segmentation_mask == class_id)`. */
  predicate Occurs(mask: Mask, classId: int)
  {
    exists i, j :: 0 <= i < |mask| && 0 <= j < |mask[i]| && mask[i][j] == classId
  }

  /** The row count is the label's multiplicity in the row. */
  lemma {:induction false} CountRowMultiset(row: seq<int>, classId: int)
    ensures CountRow(row, classId) == multiset(row)[classId]
    decreases |row|
  {
    if |row| > 0 {
      CountRowMultiset(row[1..], classId);
      assert row == [row[0]] + row[1..];
      assert multiset(row) == multiset{row[0]} + multiset(row[1..]);
    }
  }

  /** The pixel count is the label's multiplicity among all pixels. */
  lemma {:induction false} CountMultiset(mask: Mask, classId: int, n: nat)
    requires n <= |mask|
    ensures CountRows(mask, classId, n) == multiset(FlattenRows(mask, n))[classId]
    decreases n
  {
    if n > 0 {
      CountRowMultiset(mask[n - 1], classId);
      CountMultiset(mask, classId, n - 1);
      assert multiset(FlattenRows(mask, n)) == multiset(FlattenRows(mask, n - 1)) + multiset(mask[n - 1]);
    }
  }

  /** A label occurs exactly when its pixel count is positive, which is why
      a reported label never has a zero count. */
  lemma OccursIffCounted(mask: Mask, classId: int)
    ensures Occurs(mask, classId) <==> Count(mask, classId) > 0
  {
    var flat := FlattenRows(mask, |mask|);
    CountMultiset(mask, classId, |mask|);
    if Occurs(mask, classId) {
      var i, j :| 0 <= i < |mask| && 0 <= j < |mask[i]| && mask[i][j] == classId;
      FlattenHolds(mask, |mask|, i, j);
    } else if classId in multiset(flat) {
      var k :| 0 <= k < |flat| && flat[k] == classId;
      var i, j := FlattenIndex(mask, |mask|, k);
    }
  }

  /** Each pixel of the first `n` rows appears in their flattening. */
  lemma {:induction false} FlattenHolds(mask: Mask, n: nat, i: nat, j: nat)
    requires n <= |mask| && i < n && j < |mask[i]|
    ensures mask[i][j] in FlattenRows(mask, n)
    decreases n
  {
    if i == n - 1 {
      assert FlattenRows(mask, n)[|FlattenRows(mask, n - 1)| + j] == mask[i][j];
    } else {
      FlattenHolds(mask, n - 1, i, j);
    }
  }

  /** Each entry of the flattening of the first `n` rows is some pixel. */
  lemma {:induction false} FlattenIndex(mask: Mask, n: nat, k: nat) returns (i: nat, j: nat)
    requires n <= |mask| && k < |FlattenRows(mask, n)|
    ensures i < n && j < |mask[i]| && mask[i][j] == FlattenRows(mask, n)[k]
    decreases n
  {
    var before := FlattenRows(mask, n - 1);
    if k >= |before| {
      i, j := n - 1, k - |before|;
    } else {
      i, j := FlattenIndex(mask, n - 1, k);
    }
  }

  /** Sum of `costs` over the positions where `row` carries `classId`. */
  function SumRow(costs: seq<nat>, row: seq<int>, classId: int): nat
    requires |costs| == |row|
  {
    if |row| == 0 then 0
    else (if row[0] == classId then costs[0] else 0) + SumRow(costs[1..], row[1..], classId)
  }

  /** Sum of `cm` over the pixels labelled `classId` in the first `n` rows. */
  function SumRows(cm: Costs, mask: Mask, classId: int, n: nat): nat
    requires SameShape(cm, mask) && n <= |mask|
  {
    if n == 0 then 0 else SumRows(cm, mask, classId, n - 1) + SumRow(cm[n - 1], mask[n - 1], classId)
  }

  /** `np.sum(cost_map[segmentation_mask == class_id])`. */
  function SumWhere(cm: Costs, mask: Mask, classId: int): nat
    requires SameShape(cm, mask)
  {
    SumRows(cm, mask, classId, |mask|)
  }

  /** In a row painted from the table, the pixels of one label sum to their
      number times that label's cost. */
  lemma {:induction false} SumRowPainted(table: CostTable, costs: seq<nat>, row: seq<int>, classId: int)
    requires |costs| == |row|
    requires forall j :: 0 <= j < |row| ==> costs[j] == CostOf(table, row[j])
    ensures SumRow(costs, row, classId) == CountRow(row, classId) * CostOf(table, classId)
    decreases |row|
  {
    if |row| > 0 {
      SumRowPainted(table, costs[1..], row[1..], classId);
    }
  }

  lemma Distribute(a: nat, b: nat, c: nat)
    ensures (a + b) * c == a * c + b * c
  {
  }

  /** On a generated cost raster, the cost summed over a label's pixels is
      the pixel count times the label's cost. */
  lemma {:induction false} SumRowsPainted(table: CostTable, cm: Costs, mask: Mask, classId: int, n: nat)
    requires SameShape(cm, mask) && n <= |mask|
    requires forall i, j :: 0 <= i < |mask| && 0 <= j < |mask[i]| ==> cm[i][j] == CostOf(table, mask[i][j])
    ensures SumRows(cm, mask, classId, n) == CountRows(mask, classId, n) * CostOf(table, classId)
    decreases n
  {
    if n > 0 {
      SumRowPainted(table, cm[n - 1], mask[n - 1], classId);
      SumRowsPainted(table, cm, mask, classId, n - 1);
      Distribute(CountRows(mask, classId, n - 1), CountRow(mask[n - 1], classId), CostOf(table, classId));
    }
  }

  /** The terrain types the statistics report on; the dictionary keys are
      their names. */
  datatype Terrain = Water | Forest | Urban | Barren | Road

  /** `terrain_names`: class ids 0 to 4, in order. */
  const Terrains: seq<Terrain> := [Water, Forest, Urban, Barren, Road]

  /** The statistics entry of one terrain type. */
  datatype TerrainStats = TerrainStats(costValue: nat, pixelCount: nat, totalCost: nat)

  /** A `KeyError` for a reported class id missing from the table, or
      numpy's `IndexError` when the cost raster and the mask differ in shape. */
  datatype TerrainError = KeyError(classId: int) | IndexError

  /** Whether a boolean mask of `mask`'s shape can index `cm`: numpy compares
      the two shapes, that is the row counts and `shape[1]`.  On rectangular
      arrays this is `SameShape`, the row-by-row form that the pixel-wise
      definitions use to index both arrays. */
  predicate ShapesMatch(cm: Costs, mask: Mask)
  {
    |cm| == |mask| && Cols(cm) == Cols(mask)
  }

  /** Whether the statistics get past class id `k`: it does not occur, or it
      has a cost and the rasters line up. */
  predicate LabelOk(g: CostMapGenerator, mask: Mask, cm: Costs, k: int)
  {
    Occurs(mask, k) ==> k in g.terrainCosts && ShapesMatch(cm, mask)
  }

  /** The entry reported for class id `k`. */
  predicate Reports(g: CostMapGenerator, mask: Mask, cm: Costs, k: nat, stats: map<Terrain, TerrainStats>)
    requires k < |Terrains|
  {
    && k in g.terrainCosts && SameShape(cm, mask) && Terrains[k] in stats
    && stats[Terrains[k]] == TerrainStats(g.terrainCosts[k], Count(mask, k), SumWhere(cm, mask, k))
  }

  /** The loop of `get_terrain_statistics` from class id `k` on. */
  function TerrainStatsFrom(g: CostMapGenerator, mask: Mask, cm: Costs, k: nat): (r: Result<map<Terrain, TerrainStats>, TerrainError>)
    requires Rectangular(mask) && Rectangular(cm)
    requires k <= |Terrains|
    ensures r.Success? <==> forall j :: k <= j < |Terrains| ==> LabelOk(g, mask, cm, j)
    ensures r.Failure? && r.error.KeyError? ==>
      var j := r.error.classId;
      && k <= j < |Terrains| && Occurs(mask, j) && j !in g.terrainCosts
      && forall j' :: k <= j' < j ==> LabelOk(g, mask, cm, j')
    // `cost_value` is read before `total_cost`, so a missing cost wins over
    // a shape mismatch: an `IndexError` comes from a costed label
    ensures r.Failure? && r.error.IndexError? ==>
      && !ShapesMatch(cm, mask)
      && exists j :: k <= j < |Terrains| && Occurs(mask, j) && j in g.terrainCosts
           && forall j' :: k <= j' < j ==> LabelOk(g, mask, cm, j')
    ensures r.Success? ==> forall j :: 0 <= j < |Terrains| ==>
      (Terrains[j] in r.value <==> k <= j && Occurs(mask, j))
    ensures r.Success? ==> forall j :: k <= j < |Terrains| && Occurs(mask, j) ==> Reports(g, mask, cm, j, r.value)
    decreases |Terrains| - k
  {
    if k == |Terrains| then Success(map[])
    else if !Occurs(mask, k) then TerrainStatsFrom(g, mask, cm, k + 1)
    else if k !in g.terrainCosts then
      assert !LabelOk(g, mask, cm, k);
      Failure(KeyError(k))
    else if !ShapesMatch(cm, mask) then
      assert !LabelOk(g, mask, cm, k);
      assert forall j' :: k <= j' < k ==> LabelOk(g, mask, cm, j');
      Failure(IndexError)
    else
      match TerrainStatsFrom(g, mask, cm, k + 1)
      case Failure(e) => Failure(e)
      case Success(rest) =>
        assert SameShape(cm, mask);
        Success(rest[Terrains[k] := TerrainStats(g.terrainCosts[k], Count(mask, k), SumWhere(cm, mask, k))])
  }

  /** `get_terrain_statistics`: one entry per terrain type that occurs in
      the mask, failing at the first such type without a cost or when the
      two rasters differ in shape. */
  function TerrainStatistics(g: CostMapGenerator, mask: Mask, cm: Costs): (r: Result<map<Terrain, TerrainStats>, TerrainError>)
    requires Rectangular(mask) && Rectangular(cm)
    ensures r.Success? <==> forall j :: 0 <= j < |Terrains| ==> LabelOk(g, mask, cm, j)
    ensures r.Failure? && r.error.KeyError? ==>
      var j := r.error.classId;
      && 0 <= j < |Terrains| && Occurs(mask, j) && j !in g.terrainCosts
      && forall j' :: 0 <= j' < j ==> LabelOk(g, mask, cm, j')
    ensures r.Failure? && r.error.IndexError? ==>
      && !ShapesMatch(cm, mask)
      && exists j :: 0 <= j < |Terrains| && Occurs(mask, j) && j in g.terrainCosts
           && forall j' :: 0 <= j' < j ==> LabelOk(g, mask, cm, j')
    ensures r.Success? ==> forall j :: 0 <= j < |Terrains| ==> (Terrains[j] in r.value <==> Occurs(mask, j))
    ensures r.Success? ==> forall j :: 0 <= j < |Terrains| && Occurs(mask, j) ==> Reports(g, mask, cm, j, r.value)
  {
    TerrainStatsFrom(g, mask, cm, 0)
  }

  /** On the raster the generator itself painted from the mask, the
      statistics cannot fail on shape, and each reported total is the pixel
      count times the table's cost. */
  lemma StatisticsOfGenerated(g: CostMapGenerator, mask: Mask, cm: Costs)
    requires Rectangular(mask)
    requires cm == CostGrid(g.terrainCosts, mask)
    requires forall j :: 0 <= j < |Terrains| && Occurs(mask, j) ==> j in g.terrainCosts
    ensures TerrainStatistics(g, mask, cm).Success?
    ensures forall j :: 0 <= j < |Terrains| && Occurs(mask, j) ==>
      var st := TerrainStatistics(g, mask, cm).value[Terrains[j]];
      st.pixelCount > 0 && st.totalCost == st.pixelCount * st.costValue
  {
    assert ShapesMatch(cm, mask);
    var r := TerrainStatistics(g, mask, cm);
    forall j | 0 <= j < |Terrains| && Occurs(mask, j)
      ensures var st := r.value[Terrains[j]];
        st.pixelCount > 0 && st.totalCost == st.pixelCount * st.costValue
    {
      assert Reports(g, mask, cm, j, r.value);
      OccursIffCounted(mask, j);
      SumRowsPainted(g.terrainCosts, cm, mask, j, |mask|);
    }
  }
}

=== FILE: frontier.dfy ===
/** The open set of the search: a Python list kept as a binary heap by
    `heapq`, holding `(priority, (row, col))` tuples.  Which entry `heappop`
    returns depends only on the entries present, never on the heap's internal
    layout, so the frontier is modelled as a plain sequence with a pop-min. */
module Frontier {
  import opened Grid

  /** One heap item `(f, cell)`.  There is no insertion counter: ties on `f`
      fall through to comparing the cell tuples. */
  datatype Entry = Entry(priority: int, cell: Cell)

  /** Python's tuple order on `(priority, (row, col))`. */
  predicate Le(a: Entry, b: Entry)
  {
    || a.priority < b.priority
    || (a.priority == b.priority && a.cell.row < b.cell.row)
    || (a.priority == b.priority && a.cell.row == b.cell.row && a.cell.col <= b.cell.col)
  }

  /** The tuple order is a total order: two entries each at most the other
      are the same entry. */
  lemma LeTotalOrder(a: Entry, b: Entry, c: Entry)
    ensures Le(a, a)
    ensures Le(a, b) || Le(b, a)
    ensures Le(a, b) && Le(b, a) ==> a == b
    ensures Le(a, b) && Le(b, c) ==> Le(a, c)
  {
  }

  /** Whether some entry of `q` is for `cell`: the original's
      `cell in [item[1] for item in open_set]`. */
  predicate Contains(q: seq<Entry>, cell: Cell)
  {
    exists i :: 0 <= i < |q| && q[i].cell == cell
  }

  /** The cells that have an entry in `q`. */
  function Cells(q: seq<Entry>): (s: set<Cell>)
    ensures forall c :: c in s <==> Contains(q, c)
  {
    set i | 0 <= i < |q| :: q[i].cell
  }

  /** At most one entry per cell. */
  predicate UniqueCells(q: seq<Entry>)
  {
    forall a, b :: 0 <= a < b < |q| ==> q[a].cell != q[b].cell
  }

  /** Appending an entry for a cell not yet queued adds exactly that cell and
      keeps one entry per cell. */
  lemma CellsAppend(q: seq<Entry>, e: Entry)
    ensures Cells(q + [e]) == Cells(q) + {e.cell}
    ensures UniqueCells(q) && e.cell !in Cells(q) ==> UniqueCells(q + [e])
  {
    var q' := q + [e];
    assert q'[|q|] == e;
    forall c | c in Cells(q)
      ensures c in Cells(q')
    {
      var i :| 0 <= i < |q| && q[i].cell == c;
      assert q'[i] == q[i];
    }
    if UniqueCells(q) && e.cell !in Cells(q) {
      forall a, b | 0 <= a < b < |q'|
        ensures q'[a].cell != q'[b].cell
      {
        if b == |q| {
          assert Contains(q, q'[a].cell);
        }
      }
    }
  }

  /** Removing the entry at `i` from a queue with one entry per cell removes
      exactly that entry's cell. */
  lemma CellsRemoveAt(q: seq<Entry>, i: nat)
    requires i < |q|
    requires UniqueCells(q)
    ensures Cells(RemoveAt(q, i)) == Cells(q) - {q[i].cell}
    ensures UniqueCells(RemoveAt(q, i))
  {
    var r := RemoveAt(q, i);
    forall c | c in Cells(q) - {q[i].cell}
      ensures c in Cells(r)
    {
      var j :| 0 <= j < |q| && q[j].cell == c;
      if j < i {
        assert r[j] == q[j];
      } else {
        assert r[j - 1] == q[j];
      }
    }
    forall a, b | 0 <= a < b < |r|
      ensures r[a].cell != r[b].cell
    {
      var a', b' := if a < i then a else a + 1, if b < i then b else b + 1;
      assert r[a] == q[a'] && r[b] == q[b'];
    }
  }

  /** Position of a least entry of a nonempty frontier. */
  function MinIndex(q: seq<Entry>): (i: nat)
    requires |q| > 0
    ensures i < |q|
    ensures forall j :: 0 <= j < |q| ==> Le(q[i], q[j])
  {
    if |q| == 1 then 0
    else
      var m := MinIndex(q[1..]) + 1;
      if Le(q[0], q[m]) then 0 else m
  }

  /** `q` with the entry at position `i` taken out. */
  function RemoveAt(q: seq<Entry>, i: nat): (r: seq<Entry>)
    requires i < |q|
    ensures |r| == |q| - 1
    ensures multiset(r) + multiset{q[i]} == multiset(q)
    ensures forall j :: 0 <= j < i ==> r[j] == q[j]
    ensures forall j :: i <= j < |r| ==> r[j] == q[j + 1]
  {
    assert q == q[..i] + [q[i]] + q[i + 1..];
    q[..i] + q[i + 1..]
  }

  /** `heapq.heappop`: the least entry under the tuple order, and the rest. */
  function PopMin(q: seq<Entry>): (r: (Entry, seq<Entry>))
    requires |q| > 0
    ensures r.0 in q
    ensures forall e :: e in q ==> Le(r.0, e)
    ensures multiset(r.1) + multiset{r.0} == multiset(q)
  {
    var i := MinIndex(q);
    (q[i], RemoveAt(q, i))
  }

  /** The popped entry is fixed by the set of entries alone: two heaps holding
      the same items, in whatever layout, pop the same item. */
  lemma PopMinIndependentOfLayout(q1: seq<Entry>, q2: seq<Entry>)
    requires |q1| > 0
    requires forall e :: e in q1 <==> e in q2
    ensures PopMin(q1).0 == PopMin(q2).0
  {
    var a, b := PopMin(q1).0, PopMin(q2).0;
    LeTotalOrder(a, b, a);
  }
}

=== FILE: grid.dfy ===
/** Cells, rasters and the eight-way neighbourhood used by the route search
    in `src/pathfinding.py`. */
module Grid {

  /** A raster position `(row, col)`; the original uses Python tuples. */
  datatype Cell = Cell(row: int, col: int)

  /** A two-dimensional cost raster: `rows` rows of `cols` nonnegative costs. */
  type Costs = seq<seq<nat>>

  /** Number of columns of a raster, as numpy's `shape[1]` reports it. */
  function Cols<T>(g: seq<seq<T>>): nat
  {
    if |g| == 0 then 0 else |g[0]|
  }

  /** Every row has the same length: the shape of a 2-D numpy array. */
  predicate Rectangular<T>(g: seq<seq<T>>)
  {
    forall i :: 0 <= i < |g| ==> |g[i]| == Cols(g)
  }

  predicate InBounds(c: Cell, rows: int, cols: int)
  {
    0 <= c.row < rows && 0 <= c.col < cols
  }

  predicate InGrid<T>(g: seq<seq<T>>, c: Cell)
  {
    InBounds(c, |g|, Cols(g))
  }

  /** The cost of entering cell `c`: `cost_map[c[0], c[1]]`. */
  function Cost(g: Costs, c: Cell): nat
    requires Rectangular(g) && InGrid(g, c)
  {
    g[c.row][c.col]
  }

  /** All cells of a `rows × cols` raster. */
  function AllCells(rows: nat, cols: nat): (s: set<Cell>)
    ensures forall c :: c in s <==> InBounds(c, rows, cols)
  {
    set r, k | 0 <= r < rows && 0 <= k < cols :: Cell(r, k)
  }

  /** Two distinct cells whose coordinates differ by at most one in each
      direction: the king-move relation of an 8-connected raster. */
  predicate Adjacent(a: Cell, b: Cell)
  {
    a != b && -1 <= b.row - a.row <= 1 && -1 <= b.col - a.col <= 1
  }

  /** The eight compass offsets in the order the search scans them:
      N, NE, E, SE, S, SW, W, NW. */
  const Directions: seq<(int, int)> :=
    [(-1, 0), (-1, 1), (0, 1), (1, 1), (1, 0), (1, -1), (0, -1), (-1, -1)]

  function Step(c: Cell, k: nat): Cell
    requires k < |Directions|
  {
    Cell(c.row + Directions[k].0, c.col + Directions[k].1)
  }

  /** First index at or after `k` at which `Directions` holds `(dr, dc)`,
      or 8 when there is none. */
  function FindDirection(dr: int, dc: int, k: nat): (i: nat)
    requires k <= |Directions|
    ensures k <= i <= |Directions|
    ensures i < |Directions| ==> Directions[i] == (dr, dc)
    ensures forall j :: k <= j < i ==> Directions[j] != (dr, dc)
    decreases |Directions| - k
  {
    if k == |Directions| then k
    else if Directions[k] == (dr, dc) then k
    else FindDirection(dr, dc, k + 1)
  }

  /** The compass index of the move from `a` to `b`; 8 when `b` is not one
      step away from `a`. */
  function DirectionOf(a: Cell, b: Cell): (k: nat)
    ensures k <= |Directions|
    ensures k < |Directions| ==> Step(a, k) == b
  {
    FindDirection(b.row - a.row, b.col - a.col, 0)
  }

  /** The eight offsets are pairwise different and none of them is `(0, 0)`. */
  lemma DirectionsDistinct()
    ensures forall i, j :: 0 <= i < j < |Directions| ==> Directions[i] != Directions[j]
    ensures forall i :: 0 <= i < |Directions| ==> Directions[i] != (0, 0)
  {
  }

  /** One step along offset `k` has compass index `k`. */
  lemma DirectionOfStep(a: Cell, k: nat)
    requires k < |Directions|
    ensures DirectionOf(a, Step(a, k)) == k
  {
    DirectionsDistinct();
    var i := DirectionOf(a, Step(a, k));
    assert Directions[k] == (Step(a, k).row - a.row, Step(a, k).col - a.col);
    assert i <= k;
  }

  /** The offset table and the coordinate-box definition of adjacency agree:
      `b` is an 8-neighbour of `a` exactly when some compass offset leads
      from `a` to `b`. */
  lemma AdjacentIffDirection(a: Cell, b: Cell)
    ensures Adjacent(a, b) <==> DirectionOf(a, b) < |Directions|
  {
    var dr, dc := b.row - a.row, b.col - a.col;
    var i := DirectionOf(a, b);
    if i < |Directions| {
      DirectionsDistinct();
      assert Directions[i] == (dr, dc);
    }
  }

  /** The compass indices `k..7`, in order, whose step from `p` stays inside
      a `rows × cols` raster. */
  function InBoundsDirections(p: Cell, rows: int, cols: int, k: nat): (ds: seq<nat>)
    requires k <= |Directions|
    ensures |ds| <= |Directions| - k
    ensures forall i :: 0 <= i < |ds| ==> k <= ds[i] < |Directions| && InBounds(Step(p, ds[i]), rows, cols)
    ensures forall j :: k <= j < |Directions| && InBounds(Step(p, j), rows, cols) ==> j in ds
    ensures forall i, j :: 0 <= i < j < |ds| ==> ds[i] < ds[j]
    decreases |Directions| - k
  {
    if k == |Directions| then []
    else
      var rest := InBoundsDirections(p, rows, cols, k + 1);
      if InBounds(Step(p, k), rows, cols) then [k] + rest else rest
  }

  /** The cells one step from `p` along the compass indices `ds`. */
  function StepAll(p: Cell, ds: seq<nat>): (ns: seq<Cell>)
    requires forall i :: 0 <= i < |ds| ==> ds[i] < |Directions|
    ensures |ns| == |ds|
    ensures forall i :: 0 <= i < |ds| ==> ns[i] == Step(p, ds[i])
  {
    seq(|ds|, i requires 0 <= i < |ds| => Step(p, ds[i]))
  }

  lemma StepAllDirections(p: Cell, ds: seq<nat>)
    requires forall i :: 0 <= i < |ds| ==> ds[i] < |Directions|
    ensures forall i :: 0 <= i < |ds| ==> DirectionOf(p, StepAll(p, ds)[i]) == ds[i]
  {
    forall i | 0 <= i < |ds|
      ensures DirectionOf(p, StepAll(p, ds)[i]) == ds[i]
    {
      DirectionOfStep(p, ds[i]);
    }
  }

  lemma StepAllMembership(p: Cell, rows: int, cols: int, n: Cell)
    ensures n in StepAll(p, InBoundsDirections(p, rows, cols, 0)) <==> InBounds(n, rows, cols) && Adjacent(p, n)
  {
    var ds := InBoundsDirections(p, rows, cols, 0);
    var ns := StepAll(p, ds);
    AdjacentIffDirection(p, n);
    if InBounds(n, rows, cols) && Adjacent(p, n) {
      var j := DirectionOf(p, n);
      assert Step(p, j) == n;
      assert j in ds;
      var i :| 0 <= i < |ds| && ds[i] == j;
      assert ns[i] == n;
    } else if n in ns {
      var i :| 0 <= i < |ns| && ns[i] == n;
      assert n == Step(p, ds[i]);
      DirectionOfStep(p, ds[i]);
    }
  }

  /** `_get_neighbors`: the 8-neighbours of `p` inside a `rows × cols` raster,
      scanned N, NE, E, SE, S, SW, W, NW. */
  function Neighbors(p: Cell, rows: int, cols: int): (ns: seq<Cell>)
    ensures |ns| <= 8
    ensures forall n :: n in ns <==> InBounds(n, rows, cols) && Adjacent(p, n)
    ensures p !in ns
    ensures forall i, j :: 0 <= i < j < |ns| ==> DirectionOf(p, ns[i]) < DirectionOf(p, ns[j])
    ensures forall i, j :: 0 <= i < j < |ns| ==> ns[i] != ns[j]
  {
    var ds := InBoundsDirections(p, rows, cols, 0);
    StepAllDirections(p, ds);
    forall n
      ensures n in StepAll(p, ds) <==> InBounds(n, rows, cols) && Adjacent(p, n)
    {
      StepAllMembership(p, rows, cols, n);
    }
    StepAll(p, ds)
  }
}

=== FILE: ledger.dfy ===
/** The per-call search state of `find_path`: the open heap, `came_from`,
    `g_score`, `f_score` and `closed_set`, together with the relaxation of a
    just-expanded cell's neighbours (the inner `for` loop of the search). */
module Ledger {
  import opened Grid
  import opened Frontier

  /** The heuristic estimate between two cells.  The original uses Euclidean
      distance; no property proved here depends on its values. */
  type Heuristic = (Cell, Cell) -> nat

  /** The local variables of one `find_path` call. */
  datatype Search = Search(
    open: seq<Entry>,
    cameFrom: map<Cell, Cell>,
    gScore: map<Cell, nat>,
    fScore: map<Cell, int>,  // written by the search, never read
    closed: set<Cell>)

  /** The state right before the main loop: `start` queued with priority 0
      (not its heuristic value), known at cost 0, nothing closed. */
  function Init(start: Cell, end: Cell, h: Heuristic): (s: Search)
    ensures s.open == [Entry(0, start)] && Cells(s.open) == {start}
    ensures s.gScore.Keys == {start} && s.gScore[start] == 0
    ensures s.cameFrom == map[] && s.closed == {}
  {
    var s := Search([Entry(0, start)], map[], map[start := 0], map[start := h(start, end)], {});
    assert s.open[0].cell == start;
    assert Contains(s.open, start);
    s
  }

  /** What holds of the search state at the top of every iteration of the
      main loop. */
  ghost predicate Consistent(s: Search, grid: Costs, start: Cell)
  {
    Core(s, grid, start) && Discovered(s, grid)
  }

  /** Every in-bounds neighbour of a closed cell has been discovered.  This
      is the one part of `Consistent` that is broken between closing a cell
      and relaxing its neighbours. */
  ghost predicate Discovered(s: Search, grid: Costs)
  {
    forall c, n :: c in s.closed && InGrid(grid, n) && Adjacent(c, n) ==> n in s.gScore
  }

  /** The bookkeeping that holds throughout the main loop, also while the
      neighbours of the cell just closed are being relaxed. */
  ghost predicate Core(s: Search, grid: Costs, start: Cell)
  {
    Rectangular(grid) && InGrid(grid, start) && Rooted(s, start) && Partitioned(s) && Linked(s, grid)
  }

  /** The start cell is known at cost 0 and has no predecessor, every other
      known cell has one, and before the first expansion only the start
      entry is queued. */
  ghost predicate Rooted(s: Search, start: Cell)
  {
    && start in s.gScore && s.gScore[start] == 0 && start !in s.cameFrom
    && s.gScore.Keys == s.cameFrom.Keys + {start}
    && (start !in s.closed ==> s.closed == {} && s.open == [Entry(0, start)])
  }

  /** A known cell is either closed or queued, never both, and the queue
      holds at most one entry per cell. */
  ghost predicate Partitioned(s: Search)
  {
    && s.gScore.Keys == s.closed + Cells(s.open)
    && (forall i :: 0 <= i < |s.open| ==> s.open[i].cell !in s.closed)
    && UniqueCells(s.open)
  }

  /** Predecessors are closed, in-bounds 8-neighbours, and account for the
      cost. */
  ghost predicate Linked(s: Search, grid: Costs)
    requires Rectangular(grid)
  {
    && (forall n :: n in s.cameFrom ==>
          InGrid(grid, n) && s.cameFrom[n] in s.closed && Adjacent(s.cameFrom[n], n))
    && (forall n :: n in s.cameFrom ==>
          n in s.gScore && s.cameFrom[n] in s.gScore && s.gScore[n] == s.gScore[s.cameFrom[n]] + Cost(grid, n))
  }

  /** `heapq.heappush` behind the linear membership test: a cell that is
      already queued is not queued again, whatever its new priority. */
  function Push(q: seq<Entry>, e: Entry): (r: seq<Entry>)
    ensures Cells(r) == Cells(q) + {e.cell}
    ensures UniqueCells(q) ==> UniqueCells(r)
    ensures r == q || r == q + [e]
  {
    CellsAppend(q, e);
    if Contains(q, e.cell) then
      assert e.cell in Cells(q);
      q
    else q + [e]
  }

  /** The body of the neighbour loop for one neighbour `n` of `current`. */
  function RelaxNeighbor(s: Search, grid: Costs, current: Cell, n: Cell, end: Cell, h: Heuristic): (s': Search)
    requires Rectangular(grid) && InGrid(grid, n)
    requires current in s.gScore && current != n
    ensures s'.closed == s.closed
    ensures s'.gScore.Keys == s.gScore.Keys + (if n in s.closed then {} else {n})
    // a cost only ever goes down, and only for the relaxed cell
    ensures forall m :: m in s.gScore ==> s'.gScore[m] <= s.gScore[m]
    ensures forall m :: m in s.gScore && m != n ==> s'.gScore[m] == s.gScore[m]
    ensures n !in s.closed ==> s'.gScore[n] <= s.gScore[current] + Cost(grid, n)
    // the predecessor is replaced exactly when the cost is
    ensures forall m :: m in s'.cameFrom ==>
      || (m in s.cameFrom && s'.cameFrom[m] == s.cameFrom[m] && (m in s.gScore ==> s'.gScore[m] == s.gScore[m]))
      || (m == n && m !in s.closed && s'.cameFrom[m] == current
          && s'.gScore[m] == s.gScore[current] + Cost(grid, n))
    ensures s.cameFrom.Keys <= s'.cameFrom.Keys
    // a cell is queued only when it is not queued already
    ensures s'.open == s.open || (!Contains(s.open, n) && n in s'.gScore && s'.open == s.open + [Entry(s'.gScore[n] + h(n, end), n)])
    // a closed neighbour, or one already known at no greater cost, is left alone
    ensures n in s.closed || (n in s.gScore && s.gScore[current] + Cost(grid, n) >= s.gScore[n]) ==> s' == s
    // otherwise the strictly cheaper route through `current` is recorded
    ensures n !in s.closed && (n !in s.gScore || s.gScore[current] + Cost(grid, n) < s.gScore[n]) ==>
      var g := s.gScore[current] + Cost(grid, n);
      && s'.cameFrom == s.cameFrom[n := current]
      && s'.gScore == s.gScore[n := g]
      && s'.fScore == s.fScore[n := g + h(n, end)]
      && s'.open == Push(s.open, Entry(g + h(n, end), n))
  {
    if n in s.closed then s
    else
      var tentative := s.gScore[current] + Cost(grid, n);
      if n !in s.gScore || tentative < s.gScore[n] then
        var f := tentative + h(n, end);
        s.(cameFrom := s.cameFrom[n := current],
           gScore := s.gScore[n := tentative],
           fScore := s.fScore[n := f],
           open := Push(s.open, Entry(f, n)))
      else s
  }

  /** One relaxation step keeps the bookkeeping intact, shown one part of
      `Core` at a time so that each proof obligation stays small. */
  lemma RelaxNeighborCore(s: Search, grid: Costs, start: Cell, current: Cell, n: Cell, end: Cell, h: Heuristic)
    requires Core(s, grid, start)
    requires current in s.closed && start in s.closed
    requires InGrid(grid, n) && Adjacent(current, n)
    ensures Core(RelaxNeighbor(s, grid, current, n, end, h), grid, start)
  {
    RelaxRooted(s, grid, start, current, n, end, h);
    RelaxPartitioned(s, grid, current, n, end, h);
    RelaxLinked(s, grid, current, n, end, h);
  }

  /** Relaxing keeps the start cell the free root of every known cell. */
  lemma RelaxRooted(s: Search, grid: Costs, start: Cell, current: Cell, n: Cell, end: Cell, h: Heuristic)
    requires Rectangular(grid) && InGrid(grid, n) && Rooted(s, start)
    requires current in s.gScore && current != n && start in s.closed
    ensures Rooted(RelaxNeighbor(s, grid, current, n, end, h), start)
  {
  }

  /** Relaxing keeps every known cell either closed or queued once. */
  lemma RelaxPartitioned(s: Search, grid: Costs, current: Cell, n: Cell, end: Cell, h: Heuristic)
    requires Rectangular(grid) && InGrid(grid, n) && Partitioned(s)
    requires current in s.gScore && current != n
    ensures Partitioned(RelaxNeighbor(s, grid, current, n, end, h))
  {
    if !(n in s.closed || (n in s.gScore && s.gScore[current] + Cost(grid, n) >= s.gScore[n])) {
      var g := s.gScore[current] + Cost(grid, n);
      UpdatePartitioned(s, n, Push(s.open, Entry(g + h(n, end), n)),
                        s.cameFrom[n := current], g, s.fScore[n := g + h(n, end)]);
    }
  }

  /** Relaxing keeps predecessor links closed, adjacent and cost-accurate. */
  lemma RelaxLinked(s: Search, grid: Costs, current: Cell, n: Cell, end: Cell, h: Heuristic)
    requires Rectangular(grid) && InGrid(grid, n) && Linked(s, grid)
    requires current in s.gScore && current in s.closed && Adjacent(current, n)
    ensures Linked(RelaxNeighbor(s, grid, current, n, end, h), grid)
  {
    if !(n in s.closed || (n in s.gScore && s.gScore[current] + Cost(grid, n) >= s.gScore[n])) {
      UpdateLinked(s, RelaxNeighbor(s, grid, current, n, end, h), grid, current, n);
    }
  }

  /** Discovering or re-costing the unclosed cell `n`, with `n` queued once
      in `q`, keeps the partition into closed and queued cells. */
  lemma UpdatePartitioned(s: Search, n: Cell, q: seq<Entry>, cameFrom: map<Cell, Cell>, g: nat, fScore: map<Cell, int>)
    requires Partitioned(s) && n !in s.closed
    requires Cells(q) == Cells(s.open) + {n} && UniqueCells(q)
    ensures Partitioned(Search(q, cameFrom, s.gScore[n := g], fScore, s.closed))
  {
    var s' := Search(q, cameFrom, s.gScore[n := g], fScore, s.closed);
    assert s'.gScore.Keys == s.gScore.Keys + {n};
    forall i | 0 <= i < |q|
      ensures q[i].cell !in s.closed
    {
      var c := q[i].cell;
      assert Contains(q, c);
      if c != n {
        var k :| 0 <= k < |s.open| && s.open[k].cell == c;
      }
    }
  }

  /** Linking the unclosed cell `n` to the closed, adjacent `current` at
      the cost through `current` keeps every link accurate. */
  lemma UpdateLinked(s: Search, s': Search, grid: Costs, current: Cell, n: Cell)
    requires Rectangular(grid) && Linked(s, grid)
    requires current in s.closed && current in s.gScore && InGrid(grid, n) && Adjacent(current, n) && n !in s.closed
    requires s'.closed == s.closed
    requires s'.cameFrom == s.cameFrom[n := current]
    requires s'.gScore == s.gScore[n := s.gScore[current] + Cost(grid, n)]
    ensures Linked(s', grid)
  {
    forall m | m in s'.cameFrom
      ensures InGrid(grid, m) && s'.cameFrom[m] in s'.closed && Adjacent(s'.cameFrom[m], m)
      ensures m in s'.gScore && s'.cameFrom[m] in s'.gScore
      ensures s'.gScore[m] == s'.gScore[s'.cameFrom[m]] + Cost(grid, m)
    {
      if m != n {
        assert s'.cameFrom[m] == s.cameFrom[m];
        assert s'.cameFrom[m] != n;
      }
    }
  }

  /** The whole neighbour loop: relax each cell of `ns` in order. */
  function RelaxAll(s: Search, grid: Costs, current: Cell, ns: seq<Cell>, end: Cell, h: Heuristic): (s': Search)
    requires Rectangular(grid)
    requires forall i :: 0 <= i < |ns| ==> InGrid(grid, ns[i]) && ns[i] != current
    requires current in s.gScore && current in s.closed
    ensures s'.closed == s.closed
    // every neighbour ends up discovered, unless it was already closed
    ensures forall i :: 0 <= i < |ns| ==> ns[i] in s'.gScore || ns[i] in s.closed
    ensures s.gScore.Keys <= s'.gScore.Keys
    ensures forall m :: m in s.gScore ==> s'.gScore[m] <= s.gScore[m]
    // closed cells never get a new cost or a new predecessor
    ensures forall m :: m in s.closed && m in s.gScore ==> s'.gScore[m] == s.gScore[m]
    ensures forall m :: m in s.closed && m in s'.cameFrom ==> m in s.cameFrom && s'.cameFrom[m] == s.cameFrom[m]
    decreases |ns|
  {
    if |ns| == 0 then s
    else
      var s1 := RelaxNeighbor(s, grid, current, ns[0], end, h);
      RelaxAll(s1, grid, current, ns[1..], end, h)
  }

  /** The neighbour loop keeps the bookkeeping intact. */
  lemma {:induction false} RelaxAllCore(s: Search, grid: Costs, start: Cell, current: Cell, ns: seq<Cell>, end: Cell, h: Heuristic)
    requires Core(s, grid, start)
    requires current in s.closed && start in s.closed
    requires forall i :: 0 <= i < |ns| ==> InGrid(grid, ns[i]) && Adjacent(current, ns[i]) && ns[i] != current
    ensures Core(RelaxAll(s, grid, current, ns, end, h), grid, start)
    decreases |ns|
  {
    if |ns| > 0 {
      RelaxNeighborCore(s, grid, start, current, ns[0], end, h);
      var s1 := RelaxNeighbor(s, grid, current, ns[0], end, h);
      RelaxAllCore(s1, grid, start, current, ns[1..], end, h);
    }
  }
}

=== FILE: pathfinding.dfy ===
/** `AStarPathfinder` from `src/pathfinding.py`: the best-first search over an
    8-connected cost raster, the predecessor walk that turns its result into
    a route, and the route statistics. */
module Pathfinding {
  import opened Results
  import opened Grid
  import opened Frontier
  import opened Ledger

  /** The `ValueError`s `find_path` raises before any search state exists. */
  datatype SearchError = StartOutOfBounds | EndOutOfBounds

  /** The instance fields `self.path` and `self.cost`; both `None` until a
      search has succeeded. */
  datatype Pathfinder = Pathfinder(path: Option<seq<Cell>>, cost: Option<nat>)

  /** A start-to-end route: first cell `start`, last cell `end`, every cell
      in bounds, consecutive cells 8-neighbours, no cell twice. */
  ghost predicate IsRoute(grid: Costs, start: Cell, end: Cell, path: seq<Cell>)
  {
    && |path| >= 1 && path[0] == start && path[|path| - 1] == end
    && (forall i :: 0 <= i < |path| ==> InGrid(grid, path[i]))
    && (forall i :: 0 < i < |path| ==> Adjacent(path[i - 1], path[i]))
    && (forall i, j :: 0 <= i < j < |path| ==> path[i] != path[j])
  }

  /** Cost of walking `path`: the sum of the costs of the cells entered,
      which leaves out the first cell. */
  function PathCost(grid: Costs, path: seq<Cell>): nat
    requires Rectangular(grid)
    requires forall i :: 0 <= i < |path| ==> InGrid(grid, path[i])
  {
    if |path| <= 1 then 0
    else PathCost(grid, path[..|path| - 1]) + Cost(grid, path[|path| - 1])
  }

  /** On a raster where every cell costs `c`, a route of `k` cells costs
      `(k - 1) * c`, whether its steps are straight or diagonal. */
  lemma {:induction false} UniformPathCost(grid: Costs, path: seq<Cell>, c: nat)
    requires Rectangular(grid)
    requires forall i :: 0 <= i < |path| ==> InGrid(grid, path[i])
    requires forall i, j :: 0 <= i < |grid| && 0 <= j < |grid[i]| ==> grid[i][j] == c
    ensures |path| >= 1 ==> PathCost(grid, path) == (|path| - 1) * c
    decreases |path|
  {
    if |path| > 1 {
      UniformPathCost(grid, path[..|path| - 1], c);
    }
  }

  function Reverse<T>(s: seq<T>): (r: seq<T>)
    ensures |r| == |s|
    ensures forall i :: 0 <= i < |s| ==> r[i] == s[|s| - 1 - i]
  {
    seq(|s|, i requires 0 <= i < |s| => s[|s| - 1 - i])
  }

  /** `rank` strictly decreases along predecessor links that start inside
      its domain, so following them always stops. */
  ghost predicate Ranked(cameFrom: map<Cell, Cell>, rank: map<Cell, nat>)
  {
    forall c :: c in rank && c in cameFrom ==> cameFrom[c] in rank && rank[cameFrom[c]] < rank[c]
  }

  /** `_reconstruct_path`: follow `came_from` back from `current` until a cell
      without a predecessor, then reverse.  The ghost `rank` witnesses that
      the walk ends (the search supplies the order in which it closed cells). */
  method ReconstructPath(cameFrom: map<Cell, Cell>, current: Cell, ghost rank: map<Cell, nat>)
    returns (path: seq<Cell>)
    requires current in rank && Ranked(cameFrom, rank)
    ensures |path| >= 1 && path[|path| - 1] == current
    ensures path[0] !in cameFrom
    ensures forall i :: 0 <= i < |path| ==> path[i] in rank
    ensures forall i :: 0 < i < |path| ==> path[i] in cameFrom && cameFrom[path[i]] == path[i - 1]
    ensures forall i, j :: 0 <= i < j < |path| ==> rank[path[i]] < rank[path[j]]
  {
    var c := current;
    var walk := [c];
    while c in cameFrom
      invariant c in rank
      invariant |walk| >= 1 && walk[0] == current && walk[|walk| - 1] == c
      invariant forall i :: 0 <= i < |walk| ==> walk[i] in rank
      invariant forall i :: 0 <= i < |walk| - 1 ==> walk[i] in cameFrom && cameFrom[walk[i]] == walk[i + 1]
      invariant forall i, j :: 0 <= i < j < |walk| ==> rank[walk[j]] < rank[walk[i]]
      decreases rank[c]
    {
      c := cameFrom[c];
      walk := walk + [c];
    }
    path := Reverse(walk);
  }

  /** The order in which the search closed cells: predecessors of closed
      cells were closed earlier. */
  ghost predicate Ordered(s: Search, order: map<Cell, nat>)
  {
    && order.Keys == s.closed
    && (forall c :: c in order ==> order[c] < |s.closed|)
    && (forall n :: n in s.cameFrom && n in s.closed ==> s.cameFrom[n] in order && order[s.cameFrom[n]] < order[n])
  }

  /** Along a chain of predecessor links from `start`, the recorded cost of
      the last cell is the cost of walking the chain. */
  lemma {:induction false} ScoreAlongChain(s: Search, grid: Costs, start: Cell, path: seq<Cell>)
    requires Rectangular(grid) && InGrid(grid, start)
    requires start in s.gScore && s.gScore[start] == 0
    requires forall n :: n in s.cameFrom ==> InGrid(grid, n) && n in s.gScore && s.cameFrom[n] in s.gScore
    requires forall n :: n in s.cameFrom ==> s.gScore[n] == s.gScore[s.cameFrom[n]] + Cost(grid, n)
    requires |path| >= 1 && path[0] == start
    requires forall i :: 0 < i < |path| ==> path[i] in s.cameFrom && s.cameFrom[path[i]] == path[i - 1]
    ensures forall i :: 0 <= i < |path| ==> InGrid(grid, path[i])
    ensures path[|path| - 1] in s.gScore && s.gScore[path[|path| - 1]] == PathCost(grid, path)
    decreases |path|
  {
    if |path| > 1 {
      var prefix := path[..|path| - 1];
      ScoreAlongChain(s, grid, start, prefix);
      assert prefix[|prefix| - 1] == path[|path| - 2];
    }
  }

  /** Taking the least entry off the queue and closing its cell keeps the
      bookkeeping intact, and the start cell is closed from then on. */
  lemma CloseCore(s: Search, grid: Costs, start: Cell, i: nat)
    requires Core(s, grid, start) && i < |s.open|
    ensures var s1 := s.(open := RemoveAt(s.open, i), closed := s.closed + {s.open[i].cell});
      Core(s1, grid, start) && start in s1.closed
  {
    var current := s.open[i].cell;
    CellsRemoveAt(s.open, i);
    var s1 := s.(open := RemoveAt(s.open, i), closed := s.closed + {current});
    assert Contains(s.open, current);
    forall k | 0 <= k < |s1.open|
      ensures s1.open[k].cell !in s1.closed
    {
      assert Contains(s1.open, s1.open[k].cell);
    }
    if start !in s.closed {
      assert current == start;
    }
  }

  /** A nonempty set of in-bounds cells that contains every in-bounds
      8-neighbour of its members contains the whole raster. */
  lemma Connected(grid: Costs, cells: set<Cell>, a: Cell, b: Cell)
    requires a in cells && InGrid(grid, a) && InGrid(grid, b)
    requires forall c, n :: c in cells && InGrid(grid, n) && Adjacent(c, n) ==> n in cells
    ensures b in cells
    decreases if b.row < a.row then a.row - b.row else b.row - a.row,
              if b.col < a.col then a.col - b.col else b.col - a.col
  {
    if b.row != a.row {
      var b' := Cell(if b.row < a.row then b.row + 1 else b.row - 1, b.col);
      Connected(grid, cells, a, b');
      assert Adjacent(b', b);
    } else if b.col != a.col {
      var b' := Cell(b.row, if b.col < a.col then b.col + 1 else b.col - 1);
      Connected(grid, cells, a, b');
      assert Adjacent(b', b);
    }
  }

  /** The closing order, extended by the queued cell `current` as the
      latest, ranks every predecessor walk the search can start. */
  lemma ClosingOrderRanks(s: Search, order: map<Cell, nat>, current: Cell)
    requires Ordered(s, order)
    requires forall n :: n in s.cameFrom ==> s.cameFrom[n] in s.closed
    requires current !in s.closed
    ensures Ranked(s.cameFrom, order[current := |s.closed|])
  {
    var rank := order[current := |s.closed|];
    forall c | c in rank && c in s.cameFrom
      ensures s.cameFrom[c] in rank && rank[s.cameFrom[c]] < rank[c]
    {
      assert s.cameFrom[c] in s.closed;
    }
  }

  /** The walk back from a queued `end` is a route from `start`, and the
      cost recorded for `end` is the cost of walking it. */
  lemma FoundRoute(s: Search, grid: Costs, start: Cell, end: Cell, order: map<Cell, nat>, path: seq<Cell>)
    requires Core(s, grid, start) && Ordered(s, order)
    requires Contains(s.open, end)
    requires |path| >= 1 && path[|path| - 1] == end && path[0] !in s.cameFrom
    requires forall i :: 0 <= i < |path| ==> path[i] in order[end := |s.closed|]
    requires forall i :: 0 < i < |path| ==> path[i] in s.cameFrom && s.cameFrom[path[i]] == path[i - 1]
    requires forall i, j :: 0 <= i < j < |path| ==> order[end := |s.closed|][path[i]] < order[end := |s.closed|][path[j]]
    ensures IsRoute(grid, start, end, path)
    ensures end in s.gScore && s.gScore[end] == PathCost(grid, path)
    ensures start == end ==> path == [start] && s.gScore[end] == 0
  {
    assert path[0] in s.gScore;
    ScoreAlongChain(s, grid, start, path);
    forall i | 0 < i < |path|
      ensures Adjacent(path[i - 1], path[i])
    {
    }
  }

  /** The successful exit of the main loop, once `end` has been popped:
      the route `_reconstruct_path` builds from `came_from`. */
  method RouteTo(s: Search, grid: Costs, start: Cell, end: Cell, ghost order: map<Cell, nat>)
    returns (path: seq<Cell>)
    requires Consistent(s, grid, start) && Ordered(s, order)
    requires Contains(s.open, end)
    ensures IsRoute(grid, start, end, path)
    ensures end in s.gScore && s.gScore[end] == PathCost(grid, path)
    ensures start == end ==> path == [start] && s.gScore[end] == 0
  {
    assert Contains(s.open, end);
    ClosingOrderRanks(s, order, end);
    path := ReconstructPath(s.cameFrom, end, order[end := |s.closed|]);
    FoundRoute(s, grid, start, end, order, path);
  }

  /** The state before the main loop is consistent. */
  lemma InitConsistent(grid: Costs, start: Cell, end: Cell, h: Heuristic)
    requires Rectangular(grid) && InGrid(grid, start)
    ensures Consistent(Init(start, end, h), grid, start)
    ensures Ordered(Init(start, end, h), map[])
  {
  }

  /** Expanding the queued cell at position `i` (other than `end`): close it,
      then relax its neighbours.  The state stays consistent and the closing
      order gains the expanded cell as its latest entry. */
  lemma ExpandConsistent(s: Search, grid: Costs, start: Cell, end: Cell, h: Heuristic, order: map<Cell, nat>, i: nat)
    requires Consistent(s, grid, start) && Ordered(s, order) && i < |s.open|
    ensures var current := s.open[i].cell;
      var s1 := s.(open := RemoveAt(s.open, i), closed := s.closed + {current});
      var s' := RelaxAll(s1, grid, current, Neighbors(current, |grid|, Cols(grid)), end, h);
      && current !in s.closed && InGrid(grid, current)
      && s'.closed == s.closed + {current}
      && Consistent(s', grid, start)
      && Ordered(s', order[current := |s.closed|])
  {
    var current := s.open[i].cell;
    assert Contains(s.open, current);
    CloseCore(s, grid, start, i);
    var s1 := s.(open := RemoveAt(s.open, i), closed := s.closed + {current});
    var ns := Neighbors(current, |grid|, Cols(grid));
    RelaxAllCore(s1, grid, start, current, ns, end, h);
    ExpandDiscovers(s, s1, grid, start, current, end, h);
    ExpandOrdered(s, RelaxAll(s1, grid, current, ns, end, h), current, order);
  }

  /** After the expansion every neighbour of every closed cell is known. */
  lemma ExpandDiscovers(s: Search, s1: Search, grid: Costs, start: Cell, current: Cell, end: Cell, h: Heuristic)
    requires Discovered(s, grid) && Core(s1, grid, start)
    requires s1.closed == s.closed + {current} && s1.gScore == s.gScore && current in s1.closed
    ensures Discovered(RelaxAll(s1, grid, current, Neighbors(current, |grid|, Cols(grid)), end, h), grid)
  {
    var ns := Neighbors(current, |grid|, Cols(grid));
    var s' := RelaxAll(s1, grid, current, ns, end, h);
    forall c, n | c in s'.closed && InGrid(grid, n) && Adjacent(c, n)
      ensures n in s'.gScore
    {
      if c == current {
        assert n in ns;
      }
    }
  }

  /** After the expansion, closed cells still have earlier-closed
      predecessors, with the expanded cell closed last. */
  lemma ExpandOrdered(s: Search, s': Search, current: Cell, order: map<Cell, nat>)
    requires Ordered(s, order)
    requires forall n :: n in s.cameFrom ==> s.cameFrom[n] in s.closed
    requires current !in s.closed && s'.closed == s.closed + {current}
    requires forall m :: m in s'.closed && m in s'.cameFrom ==> m in s.cameFrom && s'.cameFrom[m] == s.cameFrom[m]
    ensures Ordered(s', order[current := |s.closed|])
  {
    var order' := order[current := |s.closed|];
    assert |s'.closed| == |s.closed| + 1;
    forall n | n in s'.cameFrom && n in s'.closed
      ensures s'.cameFrom[n] in order' && order'[s'.cameFrom[n]] < order'[n]
    {
      var p := s'.cameFrom[n];
      assert p == s.cameFrom[n] && p in s.closed;
      if n != current {
        assert order'[n] == order[n] && order'[p] == order[p];
      }
    }
  }

  /** One iteration of the main loop that does not reach `end`: pop the
      least entry, close its cell, relax the cell's neighbours. */
  method Expand(s: Search, grid: Costs, start: Cell, end: Cell, h: Heuristic, ghost order: map<Cell, nat>)
    returns (s': Search, ghost order': map<Cell, nat>)
    requires Consistent(s, grid, start) && Ordered(s, order)
    requires |s.open| > 0 && PopMin(s.open).0.cell != end
    ensures Consistent(s', grid, start) && Ordered(s', order')
    ensures PopMin(s.open).0.cell !in s.closed && InGrid(grid, PopMin(s.open).0.cell)
    ensures s'.closed == s.closed + {PopMin(s.open).0.cell}
  {
    var popped := PopMin(s.open);
    var current := popped.0.cell;
    ExpandConsistent(s, grid, start, end, h, order, MinIndex(s.open));
    order' := order[current := |s.closed|];
    s' := s.(open := popped.1, closed := s.closed + {current});
    s' := RelaxAll(s', grid, current, Neighbors(current, |grid|, Cols(grid)), end, h);
  }

  /** When the queue runs empty, every cell of the raster has been closed. */
  lemma ExhaustedClosesAll(s: Search, grid: Costs, start: Cell, c: Cell)
    requires Consistent(s, grid, start) && |s.open| == 0
    requires InGrid(grid, c)
    ensures c in s.closed
  {
    assert start in s.closed;
    Connected(grid, s.closed, start, c);
  }

  /** `find_path`.  Out-of-bounds endpoints are rejected before any search
      state is built.  Otherwise the search always reaches `end` (every cell
      has a finite cost and the raster is 8-connected), and the route it
      returns is recorded in the pathfinder together with its cost. */
  method FindPath(pf: Pathfinder, grid: Costs, start: Cell, end: Cell, h: Heuristic)
    returns (pf': Pathfinder, r: Result<Option<seq<Cell>>, SearchError>)
    requires Rectangular(grid)
    ensures r == Failure(StartOutOfBounds) <==> !InGrid(grid, start)
    ensures r == Failure(EndOutOfBounds) <==> InGrid(grid, start) && !InGrid(grid, end)
    ensures InGrid(grid, start) && InGrid(grid, end) ==> r.Success? && r.value.Some?
    ensures r.Failure? ==> pf' == pf
    ensures r.Success? && r.value.Some? ==>
      var path := r.value.value;
      && IsRoute(grid, start, end, path)
      && pf' == Pathfinder(Some(path), Some(PathCost(grid, path)))
    ensures InGrid(grid, start) && start == end ==> r == Success(Some([start])) && pf'.cost == Some(0)
  {
    if !InGrid(grid, start) {
      return pf, Failure(StartOutOfBounds);
    }
    if !InGrid(grid, end) {
      return pf, Failure(EndOutOfBounds);
    }
    var s := Init(start, end, h);
    InitConsistent(grid, start, end, h);
    ghost var order: map<Cell, nat> := map[];
    while |s.open| > 0
      invariant Consistent(s, grid, start) && Ordered(s, order)
      invariant end !in s.closed
      invariant start == end ==> s.closed == {}
      decreases AllCells(|grid|, Cols(grid)) - s.closed
    {
      var popped := PopMin(s.open);
      var current := popped.0.cell;
      if current == end {
        var path := RouteTo(s, grid, start, end, order);
        return Pathfinder(Some(path), Some(s.gScore[end])), Success(Some(path));
      }
      s, order := Expand(s, grid, start, end, h, order);
    }
    ExhaustedClosesAll(s, grid, start, end);
    assert false;
    return pf, Success(None);
  }
}

=== FILE: results.dfy ===
/** Failure-carrying return values.  The original program signals absence
    with `None` and failure with a raised exception; both become data here. */
module Results {

  /** A value that may be absent (Python's `None`). */
  datatype Option<+T> = None | Some(value: T)

  /** Either a computed value or the exception the original code raises. */
  datatype Result<+R, +E> = Success(value: R) | Failure(error: E)
}

=== FILE: route_statistics.dfy ===
/** `AStarPathfinder.get_path_statistics` from `src/pathfinding.py`: length,
    summed and average cost, and endpoints of the route a pathfinder holds,
    read off a cost raster that need not be the one the route was found on. */
module RouteStatistics {
  import opened Results
  import opened Grid
  import opened Pathfinding

  /** The statistics dictionary. */
  datatype PathStats = PathStats(length: nat, totalCost: nat, averageCost: real, start: Cell, end: Cell)

  /** The exceptions the statistics can raise: numpy's `IndexError` for a
      route cell outside the raster, `ZeroDivisionError` for an empty route. */
  datatype StatsError = IndexError | ZeroDivisionError

  /** numpy's reading of one integer index into an axis of length `n`:
      negative indices count from the end, anything else out of range is an
      `IndexError` (`None` here). */
  function AxisIndex(i: int, n: nat): (r: Option<nat>)
    ensures r.Some? <==> -(n as int) <= i < n
    ensures r.Some? ==> r.value < n && r.value % n == i % n
    ensures 0 <= i < n ==> r == Some(i)
  {
    if 0 <= i < n then Some(i)
    else if -(n as int) <= i < 0 then Some(i + n)
    else None
  }

  /** `cost_map[p[0], p[1]]` for a rectangular raster. */
  function Lookup(grid: Costs, c: Cell): (r: Option<nat>)
    requires Rectangular(grid)
    ensures r.Some? <==> -(|grid| as int) <= c.row < |grid| && -(Cols(grid) as int) <= c.col < Cols(grid)
    ensures InGrid(grid, c) ==> r == Some(Cost(grid, c))
  {
    match (AxisIndex(c.row, |grid|), AxisIndex(c.col, Cols(grid)))
    case (Some(i), Some(j)) => Some(grid[i][j])
    case _ => None
  }

  /** `sum(cost_map[p[0], p[1]] for p in path)`, or `None` when some cell
      cannot be indexed. */
  function SumCells(grid: Costs, path: seq<Cell>): (r: Option<nat>)
    requires Rectangular(grid)
    ensures r.Some? <==> forall i :: 0 <= i < |path| ==> Lookup(grid, path[i]).Some?
  {
    if |path| == 0 then Some(0)
    else
      match (SumCells(grid, path[..|path| - 1]), Lookup(grid, path[|path| - 1]))
      case (Some(s), Some(x)) => Some(s + x)
      case _ =>
        assert forall i :: 0 <= i < |path| - 1 ==> path[..|path| - 1][i] == path[i];
        None
  }

  /** `get_path_statistics`: `None` before any route has been stored;
      otherwise the number of cells, the cost summed over every cell
      (the first one included), its mean, and the first and last cells. */
  function PathStatistics(pf: Pathfinder, grid: Costs): (r: Result<Option<PathStats>, StatsError>)
    requires Rectangular(grid)
    ensures pf.path == None ==> r == Success(None)
    ensures r == Failure(IndexError) <==>
      pf.path.Some? && exists i :: 0 <= i < |pf.path.value| && Lookup(grid, pf.path.value[i]).None?
    ensures r == Failure(ZeroDivisionError) <==> pf.path == Some([])
    ensures r.Success? && r.value.Some? ==>
      var path, st := pf.path.value, r.value.value;
      && |path| >= 1
      && st.length == |path| && st.start == path[0] && st.end == path[|path| - 1]
      && Some(st.totalCost) == SumCells(grid, path)
      && st.averageCost * (st.length as real) == st.totalCost as real
  {
    match pf.path
    case None => Success(None)
    case Some(path) =>
      match SumCells(grid, path)
      case None => Failure(IndexError)
      case Some(total) =>
        if |path| == 0 then Failure(ZeroDivisionError)
        else
          Success(Some(PathStats(|path|, total, total as real / |path| as real, path[0], path[|path| - 1])))
  }

  /** On in-bounds cells the summed cost is the first cell's cost plus the
      cost of walking the route. */
  lemma {:induction false} SumCellsOfWalk(grid: Costs, path: seq<Cell>)
    requires Rectangular(grid) && |path| >= 1
    requires forall i :: 0 <= i < |path| ==> InGrid(grid, path[i])
    ensures SumCells(grid, path) == Some(Cost(grid, path[0]) + PathCost(grid, path))
    decreases |path|
  {
    if |path| > 1 {
      var prefix := path[..|path| - 1];
      SumCellsOfWalk(grid, prefix);
      assert prefix[0] == path[0];
    }
  }

  /** The statistics of the route `find_path` has just stored, read on the
      same raster: one entry per route cell, the endpoints asked for, and a
      total that exceeds the recorded `self.cost` by exactly the start
      cell's cost (the search never pays for the cell it starts on). */
  lemma StatisticsOfFoundRoute(grid: Costs, start: Cell, end: Cell, path: seq<Cell>, pf: Pathfinder)
    requires Rectangular(grid)
    requires IsRoute(grid, start, end, path)
    requires pf == Pathfinder(Some(path), Some(PathCost(grid, path)))
    ensures PathStatistics(pf, grid).Success? && PathStatistics(pf, grid).value.Some?
    ensures var st := PathStatistics(pf, grid).value.value;
      && st.length == |path| && st.start == start && st.end == end
      && st.totalCost == Cost(grid, start) + pf.cost.value
  {
    SumCellsOfWalk(grid, path);
  }

  /** On a raster where every cell costs `c`, the statistics of a route of
      `k` cells report a total of `k * c` and an average of exactly `c`. */
  lemma UniformStatistics(grid: Costs, path: seq<Cell>, c: nat)
    requires Rectangular(grid) && |path| >= 1
    requires forall i :: 0 <= i < |path| ==> InGrid(grid, path[i])
    requires forall i, j :: 0 <= i < |grid| && 0 <= j < |grid[i]| ==> grid[i][j] == c
    ensures var r := PathStatistics(Pathfinder(Some(path), None), grid);
      && r.Success? && r.value.Some?
      && r.value.value.totalCost == |path| * c
      && r.value.value.averageCost == c as real
  {
    SumCellsOfWalk(grid, path);
    UniformPathCost(grid, path, c);
    assert Cost(grid, path[0]) == c;
  }
}
